=== FILE: README.md ===
# Genetic algorithm toolkit: solver loop and crossovers, modelled in Dafny

The toolkit evolves fixed-length bit-vector chromosomes. A run seeds a
population through an initializer, then for a number of generations asks a
selection operator for `population_size - 1` parent couples, breeds one
child per couple (crossover, then mutation), swaps the child population in,
keeps the best hypothesis found so far (replacing it only on a strict
improvement of its rank) and pushes that best back into the population
(elitism). The run returns the best chromosome found.

Three crossover operators are part of the model:

- the split crossover draws a position `pos` in `[0, N - 1]` and a coin; on
  coin 0 the child is `a[0..pos) ++ b[pos..N)`, otherwise the parents swap
  roles;
- the mix crossover draws one coin per bit; bit `i` comes from `a` on coin 0
  and from `b` otherwise;
- the probability wrapper draws a uniform real gate; below the crossover
  probability it calls the wrapped crossover, else it draws a coin and
  returns one parent unchanged.

How the model is built:

- `chromosomes.dfy` holds the genotype (`seq<bool>`) and the parent couple.
- `crossovers.dfy` (module `CrossOvers`) has one class per operator. Each
  class holds its remaining random draws in a `draws` field, which `Apply`
  consumes from the front in the order the operator makes its calls. The bit
  vector the source fills in place is an `array` filled by the same loops
  (`SplitInto`, `MixInto`). Each loop is proved against the functions
  `Split` and `Mix`, and the lemmas beside them state what the child is bit
  by bit.
- `population.dfy` (module `Populations`) gives the behaviour the solver
  relies on from the population class. Scores are integers. `Push` scores
  and appends. `Reset` empties. `Init` pushes the initializer's results in
  call order. `Top` is the first member of maximal score.
- `genetic_solver.dfy` (module `GeneticSolver`) defines the run as values:
  - `Seeded` is the seeded generation;
  - `Step` is one generation, made of `Children` then `Advance`;
  - `Iterate` and `Run` are `k` generations.
  The imperative loop is proved equal to that definition:
  - `SeedGeneration` seeds the population;
  - `NextGeneration` is one loop body over two `Population` objects;
  - `Evolve` is the loop;
  - `Solve` is the whole function.
  The elitism, monotonicity and size properties are lemmas about `Run`.

Operators with random state (initializer, selection, crossover, mutation,
and the crossover inside the wrapper) are functions of their call number
and inputs. Call `n` of such a function stands for the operator's `n`-th
call over the whole run, so the operator's hidden generator state becomes
an explicit argument. The solver calls crossover and mutation once per
child. Child number `n` of the run is therefore
`mutate(n, crossover(n, first, second))`, and selection call `g` happens in
generation `g`.

The loop calls `top()` on the children-only population before the elite is
pushed back. With `population_size = 1` selection is asked for no couples,
so the loop would call `top()` on an empty population. The model therefore
requires `population_size >= 2` whenever a generation runs (`Feasible`).

## Model

| member | source | states |
|---|---|---|
| CrossOvers.SplitInto | source/crossovers.h:58-77 | the loops fill the child exactly as `Split` describes: prefix from one parent, suffix from the other, chosen by the coin |
| CrossOvers.SplitBits | source/crossovers.h:61-76 | the child has the parents' length; bit `i < pos` comes from `a` on coin 0 and from `b` otherwise; bit `i >= pos` comes from the other parent |
| CrossOvers.SplitSwapsParents | source/crossovers.h:61-76 | a non-zero coin gives the zero-coin child of the exchanged parents |
| CrossOvers.SplitAtZero | source/crossovers.h:61-76 | a split at position 0 copies the suffix parent whole |
| CrossOvers.SplitSuffixContributes | source/crossovers.h:53-76 | with `pos` drawn below `N`, the child's suffix from `pos` on, and hence its last bit, come from the suffix parent |
| CrossOvers.RandomSplitCrossOver.constructor | source/crossovers.h:51-55 | the operator is bound to length `N` and its draw stream |
| CrossOvers.RandomSplitCrossOver.Apply | source/crossovers.h:57-78 | consumes exactly two draws, position first and coin second; the position is below the parents' length; the child is `Split` of the parents at that position with that coin |
| CrossOvers.MixAt | source/crossovers.h:105-113 | bit `i` of the child is `a[i]` on coin `i` equal to 0 and `b[i]` otherwise, and the child has the parents' length |
| CrossOvers.MixLength | source/crossovers.h:104 | the child has the length of parent `a` |
| CrossOvers.MixMembership | source/crossovers.h:105-113 | each child bit equals the same-position bit of one of the parents; where the parents agree, the child agrees with both |
| CrossOvers.MixSwapsParents | source/crossovers.h:105-113 | exchanging the parents and flipping every coin yields the same child |
| CrossOvers.MixAllZero | source/crossovers.h:105-113 | all-zero coins copy parent `a` |
| CrossOvers.MixInto | source/crossovers.h:103-115 | the loop fills the child exactly as `Mix` describes |
| CrossOvers.RandomMixCrossOver.constructor | source/crossovers.h:98-101 | the operator is bound to its coin stream |
| CrossOvers.RandomMixCrossOver.Apply | source/crossovers.h:103-115 | consumes exactly one coin per bit, in index order, and returns `Mix` of the parents with those coins |
| CrossOvers.CrossOverOnProbWrapper.constructor | source/crossovers.h:131-138 | the wrapper holds the probability, the wrapped crossover and its draw stream; the wrapped crossover has not been called yet |
| CrossOvers.CrossOverOnProbWrapper.Apply | source/crossovers.h:141-149 | a gate below the probability delegates to the wrapped crossover (its next call) and consumes one draw; otherwise a second draw picks `a` on 0 and `b` otherwise, and the wrapped crossover is not called; probability at least 1 always delegates; probability at most 0 always returns a parent unchanged |
| Populations.TopIndex | source/genetic_solver.h:102-111 | the index of a member whose score no member exceeds, and every member before it scores strictly lower (the first maximum) |
| Populations.Seed | source/genetic_solver.h:100 | the seeded population has `n` members, all scored, and member `k` is the initializer's `k`-th result |
| Populations.Population.constructor | source/genetic_solver.h:97-98 | a new population is empty and bound to the rank function |
| Populations.Population.Push | source/genetic_solver.h:106-114 | appends the genotype with its rank score; nothing else changes |
| Populations.Population.Reset | source/genetic_solver.h:109 | the population becomes empty |
| Populations.Population.Top | source/genetic_solver.h:102-111 | returns the member at `TopIndex`, the first one of maximal score: a member no member scores above |
| Populations.Population.Select | source/genetic_solver.h:105 | hands the whole membership to the selection operator on call `call` and returns exactly its result |
| Populations.Population.Init | source/genetic_solver.h:100 | an empty population becomes `Seed`: the initializer's results in call order, scored |
| GeneticSolver.Breed | source/genetic_solver.h:105-107 | one scored child per couple |
| GeneticSolver.BreedAt | source/genetic_solver.h:105-106 | child `j` of a breeding is the scored mutation of the crossover of couple `j`, both on call `bred + j` |
| GeneticSolver.Children | source/genetic_solver.h:105-107 | the children of a generation are non-empty and scored when at least one couple is asked for |
| GeneticSolver.BreedInto | source/genetic_solver.h:105-107 | the breeding loop appends exactly `Breed` of the selected couples, in couple order, each child numbered in call order |
| GeneticSolver.NextGeneration | source/genetic_solver.h:104-115 | one loop body takes the loop state to `Step` of it; the populations trade roles and the spare one is left empty |
| GeneticSolver.SeedGeneration | source/genetic_solver.h:97-102 | the seeded population and its top are `Seeded` |
| GeneticSolver.Evolve | source/genetic_solver.h:104-115 | after `k` passes the loop state is `Iterate(k)` of the seeded state |
| GeneticSolver.Solve | source/genetic_solver.h:89-118 | returns the best of `Run`. With zero iterations that is the top of the freshly seeded population. No hypothesis of any generation of the run ranks above the result |
| GeneticSolver.AdvanceBest | source/genetic_solver.h:110-112 | after a generation the best score is at least the old best and at least the children's top; the best changes only on a strict improvement, and then to the children's top; ties keep the old best |
| GeneticSolver.AdvanceElitist | source/genetic_solver.h:110-114 | if the best is scored, then after the update and the elite push the best is a member and no member scores above it |
| GeneticSolver.SeededElitist | source/genetic_solver.h:100-102 | the seeded state is elitist: the best is the seeded top, a member, with no member above it |
| GeneticSolver.IterateElitist | source/genetic_solver.h:104-115 | every state of the loop is elitist |
| GeneticSolver.IterateBestUpdate | source/genetic_solver.h:110-112 | one generation never lowers the best score; an equal score keeps the very same best; a changed best is the children's top |
| GeneticSolver.IterateBestMonotone | source/genetic_solver.h:110-112 | the best score never decreases from one generation to any later one |
| GeneticSolver.RunBestIsRecord | source/genetic_solver.h:102-114 | the best after `k` generations is a scored member of the current population, and no hypothesis of any earlier or current generation scores above it |
| GeneticSolver.StepShape | source/genetic_solver.h:105-114 | with exact selection a generation breeds `size - 1` children and the elite push restores `size` members |
| GeneticSolver.IterateShape | source/genetic_solver.h:104-115 | with exact selection a population that starts with `size` members keeps `size` members through every generation |
| GeneticSolver.RunSize | source/genetic_solver.h:100-115 | with exact selection every population of a run has `population_size` members |
| GeneticSolver.RunBreedsPerGeneration | source/genetic_solver.h:105-107 | with exact selection each generation calls crossover and mutation `size - 1` times, and the child count grows by that much |

## Left out

- The Mersenne-Twister generator and the uniform distributions are not modelled. Each operator's stream is a sequence of values already in the distribution's range, so the model says nothing about the probabilities of outcomes.
- The gate draw and the crossover probability are `real`. Single-precision rounding and non-finite probabilities are not modelled.
- Rank scores are integers; the source's rank type defaults to `float`, so NaN and rounding are not modelled.
- The population class itself (its storage, `select` and `top` implementation) is not part of this model. `Populations` states the behaviour the solver relies on, and `top` is taken to be the first member of maximal score.
- The chromosome class, the genotype decoder, the concrete initializers, selections, mutations and rank functions are not part of this model. The solver takes them as functions.
- The verbosity parameter and any printing are left out; they do not change the result.
- Thread safety is left out: every operator is used from one thread.
- The helper that builds a probability wrapper only forwards its arguments to the constructor, so the constructor stands for it.
- `std::swap` exchanges the two populations' contents; the model exchanges which object plays `current` and which plays `next`. The result is the same, but aliasing of the two objects is not observed.
- GeneticSolver.Solve: requires `population_size >= 2` when at least one generation runs, because the code asks for the top of the children-only population, which is empty for a population of one.
- GeneticSolver.Solve: when at least one generation runs, requires that selection, handed a non-empty population and asked for one or more couples, returns at least one. Without that the same empty-population `top` call occurs. Nothing is required of selection on an empty population, which the loop never hands it, and with zero generations selection is never called at all.
- GeneticSolver.RunSize: the size invariant is stated for a selection that, handed a non-empty population, returns exactly the requested number of couples; the loop relies on this but does not check it.
- GeneticSolver.RunBreedsPerGeneration: states the per-generation count of crossover and mutation calls, not the closed form `k * (population_size - 1)` for a whole run.
- CrossOvers.RandomSplitCrossOver.Apply: requires both parents to have the length `N` the operator was built for. The code reads past the end of a shorter parent. With `N = 0` the position range `N - 1` wraps around, so `N >= 1` is required as well.
- CrossOvers.RandomMixCrossOver.Apply: requires parents of equal length, because every chromosome of a run has the same length `N`; the code reads `b` at every index of `a`, so a shorter `b` would be read past its end.
- CrossOvers.RandomSplitCrossOver.Apply, CrossOvers.RandomMixCrossOver.Apply, CrossOvers.CrossOverOnProbWrapper.Apply: require enough draws left in the finite stream for the call; a real generator never runs out.
- CrossOvers.CrossOverOnProbWrapper.Apply: the wrapped crossover is a function of its call number and the parents, so its own draw stream is not visible to the wrapper.

=== FILE: chromosomes.dfy ===
/** Genotypes and the parent pairs that selection hands to crossover. */
module Chromosomes {

  /** A chromosome: a fixed-length vector of bits, bit i being s[i]. */
  type Genotype = seq<bool>

  /** An ordered pair of parents chosen for recombination. */
  datatype Couple = Couple(first: Genotype, second: Genotype)
}

=== FILE: crossovers.dfy ===
/**
 * The crossover operators: single-point split, uniform mix, and the
 * probability gate that wraps another crossover.
 *
 * Each operator owns a pseudo-random stream. Here that stream is an explicit
 * sequence of draws held in a field and consumed from the front, one value
 * per distribution call, in the order the operator makes its calls. A draw is
 * already the value its distribution returned; the generator and the
 * distribution algorithms are not modelled, only the ranges the constructors
 * fix.
 */
module CrossOvers {
  import opened Chromosomes

  // ---------------------------------------------------------------------
  // Split crossover

  /** Single-point recombination: the prefix [0, pos) of one parent followed
      by the suffix [pos, N) of the other. Coin 0 takes the prefix from `a`;
      any other coin swaps the roles of the parents. */
  function Split(a: Genotype, b: Genotype, pos: nat, coin: nat): (child: Genotype)
    requires |a| == |b| && pos <= |a|
  {
    if coin == 0 then a[..pos] + b[pos..] else b[..pos] + a[pos..]
  }

  /** Bit by bit: which parent each position of the child comes from. */
  lemma SplitBits(a: Genotype, b: Genotype, pos: nat, coin: nat)
    requires |a| == |b| && pos <= |a|
    ensures |Split(a, b, pos, coin)| == |a|
    ensures forall i :: 0 <= i < pos ==>
              Split(a, b, pos, coin)[i] == (if coin == 0 then a[i] else b[i])
    ensures forall i :: pos <= i < |a| ==>
              Split(a, b, pos, coin)[i] == (if coin == 0 then b[i] else a[i])
  {
  }

  /** A non-zero coin is the zero coin with the parents exchanged. */
  lemma SplitSwapsParents(a: Genotype, b: Genotype, pos: nat, coin: nat)
    requires |a| == |b| && pos <= |a| && coin != 0
    ensures Split(a, b, pos, coin) == Split(b, a, pos, 0)
  {
  }

  /** With the split at 0 the child is a copy of the suffix parent. */
  lemma SplitAtZero(a: Genotype, b: Genotype, coin: nat)
    requires |a| == |b|
    ensures Split(a, b, 0, coin) == if coin == 0 then b else a
  {
    assert a[..0] == [] && b[..0] == [];
  }

  /** A split position drawn below N leaves the suffix parent at least its
      last bit: the child never copies the prefix parent by construction. */
  lemma SplitSuffixContributes(a: Genotype, b: Genotype, pos: nat, coin: nat)
    requires |a| == |b| && pos < |a|
    ensures Split(a, b, pos, coin)[pos..] == (if coin == 0 then b else a)[pos..]
    ensures Split(a, b, pos, coin)[|a| - 1] == (if coin == 0 then b else a)[|a| - 1]
  {
    SplitBits(a, b, pos, coin);
  }

  /** Fills a fresh bit vector of |a| bits the way the split operator does,
      with the split position and the coin given explicitly. */
  method SplitInto(a: Genotype, b: Genotype, pos: nat, coin: nat) returns (child: Genotype)
    requires |a| == |b| && pos <= |a|
    ensures child == Split(a, b, pos, coin)
  {
    var dest := new bool[|a|];
    if coin == 0 {
      for i := 0 to pos
        invariant forall k :: 0 <= k < i ==> dest[k] == a[k]
      {
        dest[i] := a[i];
      }
      for i := pos to |b|
        invariant forall k :: 0 <= k < pos ==> dest[k] == a[k]
        invariant forall k :: pos <= k < i ==> dest[k] == b[k]
      {
        dest[i] := b[i];
      }
    } else {
      for i := 0 to pos
        invariant forall k :: 0 <= k < i ==> dest[k] == b[k]
      {
        dest[i] := b[i];
      }
      for i := pos to |a|
        invariant forall k :: 0 <= k < pos ==> dest[k] == b[k]
        invariant forall k :: pos <= k < i ==> dest[k] == a[k]
      {
        dest[i] := a[i];
      }
    }
    child := dest[..];
    SplitBits(a, b, pos, coin);
    assert forall k :: 0 <= k < |a| ==> child[k] == Split(a, b, pos, coin)[k];
  }

  /** The stream of a split operator built for length n: each call draws a
      position in [0, n - 1] and then a coin in [0, 1]. */
  ghost predicate SplitStream(n: nat, draws: seq<nat>)
  {
    forall k :: 0 <= k < |draws| ==> draws[k] < (if k % 2 == 0 then n else 2)
  }

  class RandomSplitCrossOver {
    /** The chromosome length the operator was built for. */
    const n: nat
    /** The draws still to come, position and coin alternating. */
    var draws: seq<nat>

    ghost predicate Valid()
      reads this
    {
      n >= 1 && SplitStream(n, draws)
    }

    constructor (n: nat, draws: seq<nat>)
      requires n >= 1 && SplitStream(n, draws)
      ensures Valid() && this.n == n && this.draws == draws
    {
      this.n := n;
      this.draws := draws;
    }

    /** One recombination: draws the position, then the coin, then fills
        the child. */
    method Apply(a: Genotype, b: Genotype) returns (child: Genotype)
      requires Valid() && |a| == n && |b| == n && |draws| >= 2
      modifies this
      ensures Valid() && draws == old(draws)[2..]
      ensures old(draws)[0] < |a|
      ensures child == Split(a, b, old(draws)[0], old(draws)[1])
    {
      var pos := draws[0];
      var coin := draws[1];
      draws := draws[2..];
      assert forall k :: 0 <= k < |draws| ==> draws[k] == old(draws)[k + 2];
      child := SplitInto(a, b, pos, coin);
    }
  }

  // ---------------------------------------------------------------------
  // Mix crossover

  /** Uniform recombination, position by position: bit i comes from `a` when
      coin i is 0 and from `b` otherwise. */
  function Mix(a: Genotype, b: Genotype, coins: seq<nat>): (child: Genotype)
    requires |b| == |a| && |coins| == |a|
    decreases |a|
  {
    if a == [] then []
    else [if coins[0] == 0 then a[0] else b[0]] + Mix(a[1..], b[1..], coins[1..])
  }

  lemma {:induction false} MixAt(a: Genotype, b: Genotype, coins: seq<nat>, i: nat)
    requires |b| == |a| && |coins| == |a| && i < |a|
    ensures |Mix(a, b, coins)| == |a|
    ensures Mix(a, b, coins)[i] == if coins[i] == 0 then a[i] else b[i]
    decreases |a|
  {
    if i == 0 {
      MixLength(a[1..], b[1..], coins[1..]);
    } else {
      MixAt(a[1..], b[1..], coins[1..], i - 1);
    }
  }

  lemma {:induction false} MixLength(a: Genotype, b: Genotype, coins: seq<nat>)
    requires |b| == |a| && |coins| == |a|
    ensures |Mix(a, b, coins)| == |a|
    decreases |a|
  {
    if a != [] {
      MixLength(a[1..], b[1..], coins[1..]);
    }
  }

  /** Every bit of the child is the bit of one of the parents at the same
      position, and where the parents agree the child agrees with both. */
  lemma MixMembership(a: Genotype, b: Genotype, coins: seq<nat>)
    requires |b| == |a| && |coins| == |a|
    ensures |Mix(a, b, coins)| == |a|
    ensures forall i :: 0 <= i < |a| ==> Mix(a, b, coins)[i] == a[i] || Mix(a, b, coins)[i] == b[i]
    ensures forall i :: 0 <= i < |a| && a[i] == b[i] ==> Mix(a, b, coins)[i] == a[i]
  {
    MixLength(a, b, coins);
    forall i | 0 <= i < |a|
      ensures Mix(a, b, coins)[i] == if coins[i] == 0 then a[i] else b[i]
    {
      MixAt(a, b, coins, i);
    }
  }

  /** The coins with 0 and non-zero exchanged. */
  function Flipped(coins: seq<nat>): (r: seq<nat>)
    ensures |r| == |coins|
    ensures forall i :: 0 <= i < |coins| ==> (r[i] == 0 <==> coins[i] != 0)
  {
    seq(|coins|, i requires 0 <= i < |coins| => if coins[i] == 0 then 1 else 0)
  }

  /** Exchanging the parents and flipping every coin gives the same child. */
  lemma MixSwapsParents(a: Genotype, b: Genotype, coins: seq<nat>)
    requires |b| == |a| && |coins| == |a|
    ensures Mix(b, a, Flipped(coins)) == Mix(a, b, coins)
  {
    MixLength(a, b, coins);
    MixLength(b, a, Flipped(coins));
    forall i | 0 <= i < |a|
      ensures Mix(b, a, Flipped(coins))[i] == Mix(a, b, coins)[i]
    {
      MixAt(a, b, coins, i);
      MixAt(b, a, Flipped(coins), i);
    }
  }

  /** All-zero coins copy `a`. */
  lemma MixAllZero(a: Genotype, b: Genotype, coins: seq<nat>)
    requires |b| == |a| && |coins| == |a|
    requires forall i :: 0 <= i < |coins| ==> coins[i] == 0
    ensures Mix(a, b, coins) == a
  {
    MixLength(a, b, coins);
    forall i | 0 <= i < |a| ensures Mix(a, b, coins)[i] == a[i] {
      MixAt(a, b, coins, i);
    }
  }

  /** Fills a fresh bit vector of |a| bits the way the mix operator does,
      with coin i deciding bit i. */
  method MixInto(a: Genotype, b: Genotype, coins: seq<nat>) returns (child: Genotype)
    requires |b| == |a| && |coins| == |a|
    ensures child == Mix(a, b, coins)
  {
    var dest := new bool[|a|];
    for i := 0 to |a|
      invariant forall k :: 0 <= k < i ==> dest[k] == if coins[k] == 0 then a[k] else b[k]
    {
      if coins[i] == 0 {
        dest[i] := a[i];
      } else {
        dest[i] := b[i];
      }
    }
    child := dest[..];
    MixLength(a, b, coins);
    forall k | 0 <= k < |a| ensures child[k] == Mix(a, b, coins)[k] {
      MixAt(a, b, coins, k);
    }
  }

  /** The stream of a mix operator: coins in [0, 1]. */
  ghost predicate CoinStream(draws: seq<nat>)
  {
    forall k :: 0 <= k < |draws| ==> draws[k] < 2
  }

  class RandomMixCrossOver {
    /** The coins still to come. */
    var draws: seq<nat>

    ghost predicate Valid()
      reads this
    {
      CoinStream(draws)
    }

    constructor (draws: seq<nat>)
      requires CoinStream(draws)
      ensures Valid() && this.draws == draws
    {
      this.draws := draws;
    }

    /** One recombination: one coin per position, in index order. */
    method Apply(a: Genotype, b: Genotype) returns (child: Genotype)
      requires Valid() && |b| == |a| && |draws| >= |a|
      modifies this
      ensures Valid() && draws == old(draws)[|a|..]
      ensures child == Mix(a, b, old(draws)[..|a|])
    {
      var coins := draws[..|a|];
      draws := draws[|a|..];
      child := MixInto(a, b, coins);
    }
  }

  // ---------------------------------------------------------------------
  // Probability-gated wrapper

  /** A draw from the wrapper's stream: a uniform real in [0, 1) from the
      gate distribution, or a parent-choice coin from the binary one. */
  datatype Draw = Uniform(x: real) | Binary(bit: nat)

  ghost predicate GateStream(draws: seq<Draw>)
  {
    forall k :: 0 <= k < |draws| ==>
      match draws[k]
      case Uniform(x) => 0.0 <= x < 1.0
      case Binary(bit) => bit < 2
  }

  /**
   * Recombines with probability `prob`, else passes one parent through.
   * The wrapped crossover is owned by the wrapper and has state of its own;
   * it is given as the function from its call number and the parents to
   * the child it returns, and `calls` counts how often it has been called.
   */
  class CrossOverOnProbWrapper {
    const prob: real
    const crossover: (nat, Genotype, Genotype) -> Genotype
    var calls: nat
    var draws: seq<Draw>

    ghost predicate Valid()
      reads this
    {
      GateStream(draws)
    }

    constructor (prob: real, crossover: (nat, Genotype, Genotype) -> Genotype, draws: seq<Draw>)
      requires GateStream(draws)
      ensures Valid() && this.prob == prob && this.crossover == crossover
      ensures calls == 0 && this.draws == draws
    {
      this.prob := prob;
      this.crossover := crossover;
      this.calls := 0;
      this.draws := draws;
    }

    /** Draws the gate; below `prob` it delegates, else it draws a coin and
        returns `a` on 0 and `b` otherwise. */
    method Apply(a: Genotype, b: Genotype) returns (child: Genotype)
      requires Valid() && |draws| >= 1 && draws[0].Uniform?
      requires draws[0].x >= prob ==> |draws| >= 2 && draws[1].Binary?
      modifies this
      ensures Valid()
      ensures old(draws[0].x) < prob ==>
                child == crossover(old(calls), a, b) &&
                calls == old(calls) + 1 && draws == old(draws[1..])
      ensures prob <= old(draws[0].x) ==>
                child == (if old(draws[1].bit) == 0 then a else b) &&
                calls == old(calls) && draws == old(draws[2..])
      ensures prob >= 1.0 ==> child == crossover(old(calls), a, b)
      ensures prob <= 0.0 ==> calls == old(calls) && (child == a || child == b)
    {
      var gate := draws[0].x;
      if gate < prob {
        draws := draws[1..];
        child := crossover(calls, a, b);
        calls := calls + 1;
      } else {
        var coin := draws[1].bit;
        draws := draws[2..];
        if coin == 0 {
          child := a;
        } else {
          child := b;
        }
      }
    }
  }
}

=== FILE: genetic_solver.dfy ===
/**
 * The generational solver loop with elitism.
 *
 * The five operators are caller-supplied. Initializer, selection, crossover
 * and mutation carry random state of their own, so each is given as the
 * function from its call number (0, 1, 2, ... over the whole run) and its
 * inputs to the result of that call. The rank function is pure. Scores are
 * integers.
 */
module GeneticSolver {
  import opened Chromosomes
  import opened Populations

  datatype Operators = Operators(
    init: nat -> Genotype,
    select: (nat, seq<Hypothesis>, nat) -> seq<Couple>,
    crossover: (nat, Genotype, Genotype) -> Genotype,
    mutate: (nat, Genotype) -> Genotype,
    rank: Genotype -> int)

  /** Selection from a non-empty population, asked for at least one couple,
      returns at least one. The loop never hands selection an empty
      population, so nothing is asked of selection there. */
  ghost predicate SelectsSome(ops: Operators)
  {
    forall g: nat, hs: seq<Hypothesis>, c: nat :: hs != [] && c >= 1 ==> |ops.select(g, hs, c)| >= 1
  }

  /** Selection from a non-empty population returns exactly the number of
      couples asked for. */
  ghost predicate SelectsExactly(ops: Operators)
  {
    forall g: nat, hs: seq<Hypothesis>, c: nat :: hs != [] ==> |ops.select(g, hs, c)| == c
  }

  /** The sizes for which a run of `k` generations is defined: the seeded
      population must have a top, and so must each children-only population
      (which has `size - 1` members) before the elite is pushed back. */
  predicate Feasible(k: nat, size: nat)
  {
    size >= 1 && (k == 0 || size >= 2)
  }

  /** The loop's state after a number of generations: the current
      population, the best-so-far, and how many children have been bred. */
  datatype Generation = Generation(current: seq<Hypothesis>, best: Hypothesis, bred: nat)

  /** Child number `n` of the run: the mutation of the crossover of its
      parents, both on their `n`-th call. */
  function Child(c: Couple, n: nat, ops: Operators): (child: Genotype)
  {
    ops.mutate(n, ops.crossover(n, c.first, c.second))
  }

  /** The children of `couples`, scored, in couple order, the first of them
      being child number `bred` of the run. */
  function Breed(couples: seq<Couple>, bred: nat, ops: Operators): (children: seq<Hypothesis>)
    ensures |children| == |couples| && Scored(ops.rank, children)
  {
    if couples == [] then []
    else
      [Score(ops.rank, Child(couples[0], bred, ops))] + Breed(couples[1..], bred + 1, ops)
  }

  /** Breeding a longer list of couples appends the child of the last one. */
  lemma {:induction false} BreedSnoc(couples: seq<Couple>, bred: nat, ops: Operators)
    requires couples != []
    ensures var n := |couples| - 1;
            Breed(couples, bred, ops) == Breed(couples[..n], bred, ops) + [Score(ops.rank, Child(couples[n], bred + n, ops))]
    decreases |couples|
  {
    var n := |couples| - 1;
    if n > 0 {
      BreedSnoc(couples[1..], bred + 1, ops);
      assert couples[1..][..n - 1] == couples[..n][1..];
    }
  }

  /** Breeding one more couple of a list appends that couple's child. */
  lemma BreedPrefix(couples: seq<Couple>, j: nat, bred: nat, ops: Operators)
    requires j < |couples|
    ensures Breed(couples[..j + 1], bred, ops) ==
            Breed(couples[..j], bred, ops) + [Score(ops.rank, Child(couples[j], bred + j, ops))]
  {
    assert couples[..j + 1][..j] == couples[..j];
    BreedSnoc(couples[..j + 1], bred, ops);
  }

  /** Child `j` of a breeding is the scored mutation of the crossover of
      couple `j`, both on call `bred + j`. */
  lemma {:induction false} BreedAt(couples: seq<Couple>, bred: nat, ops: Operators, j: nat)
    requires j < |couples|
    ensures Breed(couples, bred, ops)[j] == Score(ops.rank, Child(couples[j], bred + j, ops))
    decreases j
  {
    if j > 0 {
      BreedAt(couples[1..], bred + 1, ops, j - 1);
    }
  }

  /** The state after seeding: `size` initializer calls, and their top. */
  function Seeded(size: nat, ops: Operators): (s: Generation)
    requires size >= 1
  {
    var seed := Seed(ops.init, ops.rank, size);
    Generation(seed, TopOf(seed), 0)
  }

  /** The children bred in generation number `g`: `size - 1` couples are
      asked of the selection operator. */
  function Children(g: nat, s: Generation, size: nat, ops: Operators): (children: seq<Hypothesis>)
    requires size >= 2 && SelectsSome(ops) && s.current != []
    ensures children != [] && Scored(ops.rank, children)
  {
    Breed(ops.select(g, s.current, size - 1), s.bred, ops)
  }

  /** The bookkeeping after breeding: the best-so-far is replaced only when
      the children's top scores strictly higher, then it is pushed back in
      after the children. */
  function Advance(s: Generation, children: seq<Hypothesis>, rank: Genotype -> int): (r: Generation)
    requires children != []
    ensures r.current != []
  {
    var best := if s.best.score < TopOf(children).score then TopOf(children) else s.best;
    Generation(children + [Score(rank, best.genotype)], best, s.bred + |children|)
  }

  /** Generation number `g`. */
  function Step(g: nat, s: Generation, size: nat, ops: Operators): (r: Generation)
    requires size >= 2 && SelectsSome(ops) && s.current != []
    ensures r.current != []
  {
    Advance(s, Children(g, s, size, ops), ops.rank)
  }

  /** The state `k` generations after `start`. */
  function Iterate(k: nat, start: Generation, size: nat, ops: Operators): (r: Generation)
    requires k == 0 || (size >= 2 && SelectsSome(ops) && start.current != [])
    ensures k == 0 || r.current != []
  {
    if k == 0 then start
    else Step(k - 1, Iterate(k - 1, start, size, ops), size, ops)
  }

  /** The state after seeding and `k` generations. */
  function Run(k: nat, size: nat, ops: Operators): (r: Generation)
    requires Feasible(k, size) && (k == 0 || SelectsSome(ops))
  {
    Iterate(k, Seeded(size, ops), size, ops)
  }

  /** What holds of every state of the loop: members and best-so-far are
      scored by `rank`, the best-so-far is a member, and no member beats it. */
  ghost predicate Elitist(s: Generation, rank: Genotype -> int)
  {
    Scored(rank, s.current) &&
    s.best.score == rank(s.best.genotype) &&
    s.best in s.current &&
    forall h :: h in s.current ==> h.score <= s.best.score
  }

  // ---------------------------------------------------------------------
  // One generation

  /** The best score after a generation is the larger of the old best and
      the children's top; the best hypothesis changes only on a strict
      improvement, and then to the children's top. */
  lemma AdvanceBest(s: Generation, children: seq<Hypothesis>, rank: Genotype -> int)
    requires children != []
    ensures var r := Advance(s, children, rank);
            r.best.score >= s.best.score && r.best.score >= TopOf(children).score &&
            (r.best == s.best || (s.best.score < r.best.score && r.best == TopOf(children))) &&
            (r.best.score == s.best.score ==> r.best == s.best)
  {
  }

  /** A generation keeps the loop's invariant: the new population is the
      children followed by the best-so-far, which no child beats. */
  lemma AdvanceElitist(s: Generation, children: seq<Hypothesis>, rank: Genotype -> int)
    requires children != [] && Scored(rank, children)
    requires s.best.score == rank(s.best.genotype)
    ensures var r := Advance(s, children, rank);
            |r.current| == |children| + 1 && r.current[..|children|] == children &&
            r.current[|children|] == r.best && Elitist(r, rank)
  {
    var r := Advance(s, children, rank);
    assert TopOf(children) in children;
    assert r.current[..|children|] == children;
    forall h | h in r.current ensures h.score <= r.best.score {
      if h != r.best {
        assert h in children;
      }
    }
  }

  /** The state after seeding satisfies the loop's invariant. */
  lemma SeededElitist(size: nat, ops: Operators)
    requires size >= 1
    ensures |Seeded(size, ops).current| == size && Seeded(size, ops).bred == 0
    ensures Elitist(Seeded(size, ops), ops.rank)
  {
    var seed := Seed(ops.init, ops.rank, size);
    assert TopOf(seed) in seed;
  }

  // ---------------------------------------------------------------------
  // Many generations

  /** Generation number `k` takes the state after `k` generations to the
      state after `k + 1`. The second form names `k + 1` as `j`: callers
      that hold `j` avoid arithmetic inside `Iterate`'s arguments, which the
      prover handles poorly when it unfolds `Iterate`. */
  lemma IterateNext(k: nat, j: nat, start: Generation, size: nat, ops: Operators)
    requires j == k + 1 && size >= 2 && SelectsSome(ops) && start.current != []
    ensures Iterate(k + 1, start, size, ops) == Step(k, Iterate(k, start, size, ops), size, ops)
    ensures Iterate(j, start, size, ops) == Step(k, Iterate(k, start, size, ops), size, ops)
  {
  }

  /** `trace` lists the states of consecutive generations from `start`. */
  ghost predicate Traced(trace: seq<Generation>, start: Generation, size: nat, ops: Operators)
  {
    trace != [] && trace[0] == start &&
    (|trace| > 1 ==>
       size >= 2 && SelectsSome(ops) &&
       (forall j :: 0 <= j < |trace| ==> trace[j].current != []) &&
       forall j :: 0 < j < |trace| ==> trace[j] == Step(j - 1, trace[j - 1], size, ops))
  }

  lemma {:induction false} TracedIterate(trace: seq<Generation>, k: nat, start: Generation, size: nat, ops: Operators)
    requires Traced(trace, start, size, ops) && k < |trace|
    ensures k == 0 || (size >= 2 && SelectsSome(ops) && start.current != [])
    ensures trace[k] == Iterate(k, start, size, ops)
    decreases k
  {
    if k > 0 {
      var p := k - 1;
      TracedIterate(trace, p, start, size, ops);
      IterateNext(p, k, start, size, ops);
    }
  }

  /** The loop's invariant holds after every number of generations. */
  lemma {:induction false} IterateElitist(k: nat, start: Generation, size: nat, ops: Operators)
    requires k == 0 || (size >= 2 && SelectsSome(ops) && start.current != [])
    requires Elitist(start, ops.rank)
    ensures Elitist(Iterate(k, start, size, ops), ops.rank)
  {
    if k > 0 {
      var p := k - 1;
      IterateElitist(p, start, size, ops);
      IterateNext(p, k, start, size, ops);
      var s := Iterate(p, start, size, ops);
      AdvanceElitist(s, Children(p, s, size, ops), ops.rank);
    }
  }

  /** One generation never lowers the best score; a generation that does not
      strictly improve it keeps the very same best hypothesis, and one that
      does takes the children's top. */
  lemma IterateBestUpdate(k: nat, start: Generation, size: nat, ops: Operators)
    requires size >= 2 && SelectsSome(ops) && start.current != []
    ensures var s := Iterate(k, start, size, ops);
            var r := Iterate(k + 1, start, size, ops);
            s.best.score <= r.best.score &&
            (r.best.score == s.best.score ==> r.best == s.best) &&
            (r.best != s.best ==> r.best == TopOf(Children(k, s, size, ops)))
  {
    IterateNext(k, k + 1, start, size, ops);
    var s := Iterate(k, start, size, ops);
    AdvanceBest(s, Children(k, s, size, ops), ops.rank);
  }

  /** The best-so-far never loses score from one generation to a later one. */
  lemma {:induction false} IterateBestMonotone(i: nat, j: nat, start: Generation, size: nat, ops: Operators)
    requires i <= j && (j == 0 || (size >= 2 && SelectsSome(ops) && start.current != []))
    ensures Iterate(i, start, size, ops).best.score <= Iterate(j, start, size, ops).best.score
    decreases j
  {
    if i < j {
      var p := j - 1;
      IterateBestMonotone(i, p, start, size, ops);
      IterateBestUpdate(p, start, size, ops);
    }
  }

  /** Selection that returns exactly what is asked for also returns at least
      one couple when asked for one or more. */
  lemma ExactSelectsSome(ops: Operators)
    requires SelectsExactly(ops)
    ensures SelectsSome(ops)
  {
    forall g: nat, hs: seq<Hypothesis>, c: nat | hs != [] && c >= 1 ensures |ops.select(g, hs, c)| >= 1 {
      assert |ops.select(g, hs, c)| == c;
    }
  }

  /** With selection returning exactly what is asked, each generation
      breeds `size - 1` children and the elite restores the size. */
  lemma StepShape(g: nat, s: Generation, size: nat, ops: Operators)
    requires size >= 2 && SelectsExactly(ops) && SelectsSome(ops) && s.current != []
    ensures |Step(g, s, size, ops).current| == size
    ensures Step(g, s, size, ops).bred == s.bred + (size - 1)
  {
    assert |Children(g, s, size, ops)| == size - 1 by {
      assert |ops.select(g, s.current, size - 1)| == size - 1;
    }
  }

  /** With selection returning exactly what is asked, every population has
      `size` members. */
  lemma {:induction false} IterateShape(k: nat, start: Generation, size: nat, ops: Operators)
    requires size >= 2 && SelectsExactly(ops) && |start.current| == size
    ensures SelectsSome(ops)
    ensures |Iterate(k, start, size, ops).current| == size
  {
    ExactSelectsSome(ops);
    if k > 0 {
      var p := k - 1;
      IterateShape(p, start, size, ops);
      IterateNext(p, k, start, size, ops);
      StepShape(p, Iterate(p, start, size, ops), size, ops);
    }
  }

  // ---------------------------------------------------------------------
  // A whole run

  /** The best-so-far after `k` generations is a member of the current
      population, and scores at least as high as every hypothesis of every
      population seen up to then, the seeded one included. */
  lemma RunBestIsRecord(k: nat, size: nat, ops: Operators)
    requires Feasible(k, size) && (k == 0 || SelectsSome(ops))
    ensures Run(k, size, ops).best in Run(k, size, ops).current
    ensures Run(k, size, ops).best.score == ops.rank(Run(k, size, ops).best.genotype)
    ensures forall j, h :: 0 <= j <= k && h in Run(j, size, ops).current ==>
              h.score <= Run(k, size, ops).best.score
  {
    var start := Seeded(size, ops);
    SeededElitist(size, ops);
    IterateElitist(k, start, size, ops);
    forall j, h | 0 <= j <= k && h in Run(j, size, ops).current
      ensures h.score <= Run(k, size, ops).best.score
    {
      IterateElitist(j, start, size, ops);
      IterateBestMonotone(j, k, start, size, ops);
    }
  }

  /** With selection returning exactly what is asked, every population of
      the run has `size` members. */
  lemma RunSize(k: nat, size: nat, ops: Operators)
    requires Feasible(k, size) && SelectsExactly(ops)
    ensures SelectsSome(ops)
    ensures |Run(k, size, ops).current| == size
  {
    ExactSelectsSome(ops);
    SeededElitist(size, ops);
    if k > 0 {
      IterateShape(k, Seeded(size, ops), size, ops);
    }
  }

  /** With selection returning exactly what is asked, generation number `k`
      breeds `size - 1` children: that many crossover and mutation calls. */
  lemma RunBreedsPerGeneration(k: nat, size: nat, ops: Operators)
    requires Feasible(k + 1, size) && SelectsExactly(ops)
    ensures SelectsSome(ops)
    ensures |Children(k, Run(k, size, ops), size, ops)| == size - 1
    ensures Run(k + 1, size, ops).bred == Run(k, size, ops).bred + (size - 1)
  {
    ExactSelectsSome(ops);
    var s := Run(k, size, ops);
    IterateNext(k, k + 1, Seeded(size, ops), size, ops);
    StepShape(k, s, size, ops);
    assert |ops.select(k, s.current, size - 1)| == size - 1;
  }

  // ---------------------------------------------------------------------
  // The loop

  /** Breeds one child per couple, in couple order, into `next`. */
  method BreedInto(next: Population, couples: seq<Couple>, bred: nat, ops: Operators)
    requires next.Valid() && next.rank == ops.rank
    modifies next
    ensures next.Valid() && next.members == old(next.members) + Breed(couples, bred, ops)
  {
    for j := 0 to |couples|
      invariant next.Valid() && next.members == old(next.members) + Breed(couples[..j], bred, ops)
    {
      BreedPrefix(couples, j, bred, ops);
      next.Push(ops.mutate(bred + j, ops.crossover(bred + j, couples[j].first, couples[j].second)));
    }
    assert couples[..|couples|] == couples;
  }

  /** The two populations the loop alternates between: distinct, bound to
      the solver's rank, scored, and the spare one empty. */
  ghost predicate Ready(current: Population, next: Population, ops: Operators)
    reads current, next
  {
    current != next && current.rank == ops.rank && next.rank == ops.rank &&
    current.Valid() && next.Valid() && next.members == []
  }

  /** One pass of the loop body: breed the selected couples into `next`,
      swap the two populations, reset the old generation, update the best on
      strict improvement, push the best back in. Returns the populations in
      their new roles. */
  method NextGeneration(g: nat, current: Population, next: Population, best: Hypothesis, bred: nat,
                        size: nat, ops: Operators, ghost s: Generation)
    returns (current': Population, next': Population, best': Hypothesis, bred': nat)
    requires size >= 2 && SelectsSome(ops) && Ready(current, next, ops) && s.current != []
    requires Generation(current.members, best, bred) == s
    modifies current, next
    ensures current' == next && next' == current && Ready(current', next', ops)
    ensures current'.members != []
    ensures Generation(current'.members, best', bred') == Step(g, s, size, ops)
  {
    var couples := current.Select(ops.select, g, size - 1);
    BreedInto(next, couples, bred, ops);
    assert next.members == Children(g, s, size, ops);
    bred' := bred + |couples|;
    current', next' := next, current;
    next'.Reset();
    best' := best;
    if best'.score < current'.Top().score {
      best' := current'.Top();
    }
    // the best-so-far re-enters the population unchanged
    current'.Push(best'.genotype);
    assert Generation(current'.members, best', bred') == Advance(s, Children(g, s, size, ops), ops.rank);
  }

  /** Seeds the current population and takes its top as the first best. */
  method SeedGeneration(size: nat, ops: Operators) returns (current: Population, best: Hypothesis)
    requires size >= 1
    ensures fresh(current) && current.rank == ops.rank && current.Valid()
    ensures Generation(current.members, best, 0) == Seeded(size, ops)
  {
    current := new Population(ops.rank);
    current.Init(ops.init, size);
    best := current.Top();
  }

  /** Runs generations `0 .. k - 1` from the state `start`, the two
      populations trading roles after each. */
  method Evolve(k: nat, current: Population, next: Population, best: Hypothesis, size: nat,
                ops: Operators, ghost start: Generation)
    returns (best': Hypothesis, bred': nat, ghost final: seq<Hypothesis>)
    requires (k == 0 || (size >= 2 && SelectsSome(ops) && current.members != [])) && Ready(current, next, ops)
    requires Generation(current.members, best, 0) == start
    modifies current, next
    ensures Generation(final, best', bred') == Iterate(k, start, size, ops)
  {
    var c, n := current, next;
    best', bred' := best, 0;
    ghost var trace := [start];
    for i := 0 to k
      invariant (c == current && n == next) || (c == next && n == current)
      invariant Ready(c, n, ops) && (c.members != [] || k == 0)
      invariant Traced(trace, start, size, ops) && |trace| == i + 1
      invariant Generation(c.members, best', bred') == trace[i]
    {
      c, n, best', bred' := NextGeneration(i, c, n, best', bred', size, ops, trace[i]);
      trace := trace + [Generation(c.members, best', bred')];
    }
    final := c.members;
    TracedIterate(trace, k, start, size, ops);
  }

  /** Runs `numIterations` generations and returns the best genotype found. */
  method Solve(numIterations: nat, populationSize: nat, ops: Operators) returns (result: Genotype)
    requires Feasible(numIterations, populationSize) && (numIterations == 0 || SelectsSome(ops))
    ensures result == Run(numIterations, populationSize, ops).best.genotype
    ensures numIterations == 0 ==> result == TopOf(Seed(ops.init, ops.rank, populationSize)).genotype
    ensures forall j, h :: 0 <= j <= numIterations && h in Run(j, populationSize, ops).current ==>
              h.score <= ops.rank(result)
  {
    var current, best := SeedGeneration(populationSize, ops);
    var next := new Population(ops.rank);
    var bred;
    ghost var final;
    best, bred, final := Evolve(numIterations, current, next, best, populationSize, ops, Seeded(populationSize, ops));
    result := best.genotype;
    RunBestIsRecord(numIterations, populationSize, ops);
  }
}

=== FILE: population.dfy ===
/**
 * A population of scored genotypes bound to one rank function.
 *
 * The population class itself is not part of this model; what the solver
 * loop relies on is assumed here: `Push` scores and appends, `Reset`
 * empties, `Init` calls the initializer once per member, and `Top` is the
 * first member of maximal score.
 */
module Populations {
  import opened Chromosomes

  /** A genotype paired with its rank. */
  datatype Hypothesis = Hypothesis(genotype: Genotype, score: int)

  function Score(rank: Genotype -> int, g: Genotype): (h: Hypothesis)
  {
    Hypothesis(g, rank(g))
  }

  /** Every member carries the score `rank` gives its genotype. */
  predicate Scored(rank: Genotype -> int, s: seq<Hypothesis>)
  {
    forall i :: 0 <= i < |s| ==> s[i].score == rank(s[i].genotype)
  }

  /** The index of the first member of maximal score. */
  function TopIndex(s: seq<Hypothesis>): (i: nat)
    requires s != []
    ensures i < |s|
    ensures forall j :: 0 <= j < |s| ==> s[j].score <= s[i].score
    ensures forall j :: 0 <= j < i ==> s[j].score < s[i].score
    decreases |s|
  {
    if |s| == 1 then 0
    else
      var i := TopIndex(s[..|s| - 1]);
      if s[i].score < s[|s| - 1].score then |s| - 1 else i
  }

  function TopOf(s: seq<Hypothesis>): (top: Hypothesis)
    requires s != []
  {
    s[TopIndex(s)]
  }

  /** The population the initializer seeds: its k-th call scored, in call order. */
  function Seed(init: nat -> Genotype, rank: Genotype -> int, n: nat): (s: seq<Hypothesis>)
    ensures |s| == n && Scored(rank, s)
    ensures forall k :: 0 <= k < n ==> s[k].genotype == init(k)
  {
    seq(n, k requires 0 <= k => Hypothesis(init(k), rank(init(k))))
  }

  class Population {
    const rank: Genotype -> int
    var members: seq<Hypothesis>

    ghost predicate Valid()
      reads this
    {
      Scored(rank, members)
    }

    constructor (rank: Genotype -> int)
      ensures Valid() && this.rank == rank && members == []
    {
      this.rank := rank;
      members := [];
    }

    /** Scores `g` and appends it; no deduplication. */
    method Push(g: Genotype)
      requires Valid()
      modifies this
      ensures Valid() && members == old(members) + [Score(rank, g)]
    {
      members := members + [Score(rank, g)];
    }

    /** Drops every member; the rank binding stays. */
    method Reset()
      modifies this
      ensures Valid() && members == []
    {
      members := [];
    }

    /** Calls the initializer `n` times (call k yields `init(k)`) and pushes
        each result into the empty population. */
    method Init(init: nat -> Genotype, n: nat)
      requires Valid() && members == []
      modifies this
      ensures Valid() && members == Seed(init, rank, n)
    {
      for k := 0 to n
        invariant Valid() && members == Seed(init, rank, k)
      {
        assert Seed(init, rank, k + 1) == Seed(init, rank, k) + [Score(rank, init(k))];
        Push(init(k));
      }
    }

    /** The first member of maximal score. */
    function Top(): (top: Hypothesis)
      reads this
      requires members != []
      ensures top == members[TopIndex(members)]
      ensures top in members && forall h :: h in members ==> h.score <= top.score
    {
      TopOf(members)
    }

    /** Hands the whole current membership to the selection operator (on its
        `call`-th call) and returns what it produces. */
    function Select(select: (nat, seq<Hypothesis>, nat) -> seq<Couple>, call: nat, count: nat): (couples: seq<Couple>)
      reads this
      ensures couples == select(call, members, count)
    {
      select(call, members, count)
    }
  }
}
